=== FILE: README.md ===
# tailscale-route-tiller: route-list builder

A Dafny model of the route-list builder of tailscale-route-tiller. This is
the code between DNS and the two side effects that apply routes: the local
`tailscale` command and the route-approval API. It has three parts:

- `utils.Unique` (module `Dedupe`), which drops repeated entries and keeps
  the first occurrence of each.
- Building the subnet list from lookups. `Dns` models the TTL-tracking
  `utils.PerformDNSLookups` and the A/AAAA answer filter of
  `lookupIPsWithTTL`. `Cli` models the per-address `PerformDNSLookups` of
  `main.go`.
- One update run. `Cli.RunUpdates` models `runUpdates` of `main.go`, and
  `Worker.RunUpdates` models `runUpdates` of the worker. Each builds the
  final list, fills in the command template, and applies the test-mode gate
  to the command and the route publish. `Worker.Iteration` and `Worker.Run`
  model the worker's queue loop: parse, then skip, or wait, update and
  delete. `WorkerLoop` states how runs of the loop compose.

DNS and the platform resolver are oracles. `Dns.Resolver` holds the result
of reading the resolver configuration and an exchange function of (server,
host, question type). `Cli.LookupIP` is the platform's `net.LookupIP`. The
shell command, the route publish, the event parser and the queue delete are
also parameters. An update returns an `Effects.Trace`: the ordered list of
effects it causes and how it ends. The end is either `Finished` or
`Exited(code)`, which stands for `os.Exit` and `log.Fatal`. The command
template is a prefix and a suffix around its single `%s`
(`Command.Template`). `Text` holds `strings.Join` and its inverse
`strings.Split`, which show that the command string carries the route list
without loss.

Behaviour of the code worth knowing:

- `lookupIPsWithTTL(host, true)` asks only for AAAA records, not for A and
  AAAA records.
- In the worker, a DNS error does not abort the update. The error is posted,
  the resolved part becomes empty, and the update goes on with the static
  subnets alone (`Worker.DnsErrorLeavesStaticRoutes`).
- The worker posts the route-update notice in test mode as well.
- The command in `main.go` is not deduplicated, and its publish errors are
  only printed.
- There is no diff against a previously applied set, no first-run flag and
  no TTL-driven rescheduling in this code, so the model has none of them.

## Model

| member | source | states |
|---|---|---|
| Dedupe.Unique | utils/utils.go:18-28 | the output has no repeated entry and holds exactly the entries of the input, so nothing is added or lost |
| Dedupe.UniqueLoop | utils/utils.go:18-28 | the map-of-keys loop returns the same list as the reference definition, and that list is free of duplicates |
| Dedupe.UniqueFirstSeenOrder | utils/utils.go:21-25 | output entries appear in the order of their first occurrence in the input, so the output is the subsequence of first occurrences |
| Dedupe.UniqueOfDistinct | utils/utils.go:21-26 | a list without repeats is returned unchanged |
| Dedupe.UniqueIdempotent | utils/utils.go:18-28 | deduplicating twice gives the same list as deduplicating once |
| Dns.SystemDns | utils/utils.go:30-37 | the first configured nameserver; an error exactly when the configuration cannot be read or lists no server |
| Dns.FilterAnswers | utils/utils.go:61-68 | the result holds exactly the A and AAAA answers, each with its address and TTL unchanged, and is never longer than the response |
| Dns.FilterAnswersAppend | utils/utils.go:61-68 | the filter keeps response order: filtering a concatenation concatenates the filtered parts |
| Dns.FilterAnswersOfAddresses | utils/utils.go:61-68 | a response of only A/AAAA answers is kept entry for entry |
| Dns.LookupIPsWithTTL | utils/utils.go:39-71 | fails with the system-DNS error when there is no nameserver and otherwise exactly when the exchange with server:53 fails; on success it returns exactly the filtered answers (all A/AAAA answers, in order) of the exchange that asks AAAA when IPv6 is requested and A otherwise |
| Dns.Masked | utils/utils.go:93 | each route is its record's address with the mask appended, position for position |
| Dns.LowerTtl | utils/utils.go:89-92 | the running minimum never rises, is at most every record TTL, and is its start value or one of those TTLs |
| Dns.LookupPass | utils/utils.go:80-96 | one pass never raises the running minimum and completes exactly when every site's lookup succeeds |
| Dns.LookupPassCollects | utils/utils.go:80-96 | a completed pass yields the masked records of all sites in site and answer order, and its minimum has seen all of their TTLs |
| Dns.LookupPassFirstError | utils/utils.go:82-86 | a failed pass reports the error of the first site whose lookup fails, all earlier sites having resolved |
| Dns.PerformDnsLookups | utils/utils.go:73-126 | succeeds exactly when every IPv4 lookup and, with IPv6 enabled, every IPv6 lookup succeeds; on success the TTL is exactly 60; on error the list is empty and the TTL is at most 60 |
| Dns.PerformDnsLookupsFirstError | utils/utils.go:80-118 | the error returned is that of the first failing lookup in the IPv4 pass, or in the IPv6 pass when every IPv4 lookup succeeded |
| Dns.PerformDnsLookupsSubnets | utils/utils.go:80-118 | on success the list is all IPv4-pass routes followed by all IPv6-pass routes, the latter only when IPv6 is enabled |
| Dns.PassSubnetsMembership | utils/utils.go:88-95 | a route is in a pass exactly when some site resolves to a record whose address plus the pass's mask is that route |
| Dns.PassRecordsMembership | utils/utils.go:80-96 | a record is collected exactly when some site's lookup returns it |
| Dns.PassSubnetsMasked | utils/utils.go:77-78 | every IPv4-pass route ends in /32 and every IPv6-pass route ends in /128 |
| Dns.LongTtlIsReportedAsFloor | utils/utils.go:76 | for a single A record with TTL 300, the as-written lookup reports 60 and the corrected one reports 300 |
| Dns.PerformDnsLookupsFixed | utils/utils.go:120-122 | the corrected lookup never reports a TTL below the floor of 60 |
| Dns.PerformDnsLookupsFixedTtl | utils/utils.go:89-122 | on success the corrected TTL is max(60, smallest record TTL): at least 60, at most 60 or any record's TTL, equal to 60 or to some record's TTL, at least some record's TTL when there is a record, and 60 when there is none |
| Dns.LookupPassIgnoresLowest | utils/utils.go:80-96 | the running minimum does not affect which routes a pass yields or which error it reports |
| Dns.PerformDnsLookupsFixedAgrees | utils/utils.go:73-126 | correcting the TTL changes neither the route list nor the error |
| Cli.AddressRoutes | main.go:53-65 | a site's routes are exactly the routes of its addresses: an IPv4 address gives its /32, another address its /128 only when IPv6 is enabled; every route is a /32, or a /128 when IPv6 is enabled |
| Cli.AddressRoutesAppend | main.go:53-65 | routes follow resolver order and keep repeated addresses: the routes of a concatenation of address lists are the concatenation of their routes |
| Cli.AddressRoutesIpv4Only | main.go:55-63 | without IPv6 every route is the /32 of an IPv4 address, and an all-IPv4 answer gives one /32 per address, position for position |
| Cli.PerformDnsLookups | main.go:46-69 | every route is a /32, or a /128 when IPv6 is enabled; its order, skipping and membership are stated by Cli.PerformDnsLookupsAppend, Cli.FailingSiteIsSkipped and Cli.PerformDnsLookupsMembership |
| Cli.PerformDnsLookupsAppend | main.go:48-67 | output follows site order: the routes of a concatenation of site lists are the concatenation of their routes |
| Cli.ResolvingSiteRoutes | main.go:52-65 | a resolving site contributes exactly the routes of its addresses, in the resolver's order; with Cli.PerformDnsLookupsAppend and Cli.AddressRoutesAppend this fixes the whole list |
| Cli.FailingSiteIsSkipped | main.go:49-51 | removing a failing site from the list leaves the output unchanged, so the other sites still contribute |
| Cli.PerformDnsLookupsMembership | main.go:48-65 | a route is produced exactly when some resolving site has an address whose route it is |
| Cli.FinalRoutes | main.go:72-73 | the applied list holds exactly the resolved routes and the static subnets, each as often as in its source list (multiset equality), so nothing is merged or dropped |
| Cli.FinalRoutesKeepsDuplicates | main.go:72-73 | a static subnet that is also resolved occurs at two positions of the applied list |
| Cli.RunUpdates | main.go:71-94 | in test mode nothing runs; routes are published exactly when the command runs and succeeds; the process exits exactly when the command fails; the published list is resolved ++ static subnets and is published right after the command built from it; outside test mode the first effect is that command; an exit has status 1 |
| Cli.PublishedRoutesMatchCommand | main.go:74-89 | the published list can be read back from the command that ran before it, when it is non-empty and comma-free |
| Command.ArgumentOfRender | worker/worker.go:116 | the argument can be read back from a rendered command |
| Command.CommandLine | worker/worker.go:113-116 | the argument read back from the command is exactly the comma-joined route list |
| Command.RoutesOfCommandLine | worker/worker.go:113-116 | splitting the command's argument on commas gives back the route list, when it is non-empty and no route holds a comma |
| Command.CommandLineInjective | main.go:74-75 | two such route lists that give the same command are equal |
| Worker.FinalRoutes | worker/worker.go:106-108 | the final list has no duplicates and holds exactly the static subnets and the resolved routes, so every static subnet is present; it is the first-seen deduplication of resolved routes followed by static subnets |
| Worker.DnsErrorLeavesStaticRoutes | worker/worker.go:100-108 | after a DNS error the final list is the deduplicated static subnets, or the static subnets themselves when they have no repeats |
| Worker.RunUpdates | worker/worker.go:98-141 | in test mode neither the command nor the publish happens; outside it the publish happens exactly when the command succeeds; the published list is the final list, after the command built from it; an error is posted first exactly on a DNS error; exits are status 1 and happen exactly when, outside test mode, the command fails or the publish fails; outside test mode the command runs; the route-update notice is posted exactly when in test mode or the command succeeds; a failed command is the last effect; a publish error is posted as the last effect; the update never deletes a queue message |
| Worker.UpdateTrace | worker/worker.go:100-140 | the effects of one update given its inputs: a DNS error is posted first; the command precedes the publish; the notice is posted exactly in test mode or after a successful command; the process exits exactly on a failed command or publish, with the failing step last |
| Worker.NoticeBetweenCommandAndPublish | worker/worker.go:118-136 | outside test mode, after a successful command, the update's effects hold the command, the route-update notice and the publish as three adjacent entries in that order |
| Worker.Iteration | worker/worker.go:48-95 | a failed receive exits; an empty or unparsable poll does nothing and deletes nothing; a deletion is the last effect, of the polled message, after the settle wait and a completed update; an update that exits leaves the wait and the update's effects and ending as the whole iteration; after a completed update the iteration finishes exactly when the delete succeeds and otherwise exits with status 1 |
| Worker.Settle | worker/worker.go:77-93 | around an update: the settle wait comes first; an update that exits ends the iteration with the wait and its effects; otherwise the message's receipt is deleted as the last effect, after the wait and the whole update, and the iteration finishes exactly when the delete succeeds, else exits with status 1 |
| Worker.CompletedUpdateDeletesMessage | worker/worker.go:77-89 | a parsed message whose update completes is waited on, updated and then deleted, in that order |
| Worker.Run | worker/worker.go:48-95 | the loop exits exactly when some iteration exits, and every deleted receipt belongs to a message whose update completed |
| WorkerLoop.RunOfOne | worker/worker.go:48-95 | a run of a single round is exactly that round's iteration |
| WorkerLoop.RunAppend | worker/worker.go:48-95 | runs compose: after a run that does not exit, the next rounds' effects follow all of its effects and their ending is the ending; a run that exits stops there, so every run is its iterations' effects in order, cut at the first exit |
| Worker.RunStopsAtExit | worker/worker.go:56-58 | iterations after the first exiting one have no effect |

## Findings

| source | as written | input that shows it | evidently intended | confidence | as-written member | corrected member |
|---|---|---|---|---|---|---|
| utils/utils.go:76 | `lowestTTL` starts at the floor of 60, so the running minimum can never exceed 60, and the clamp at lines 120-122 always returns exactly 60 | one site with a single A record of TTL 300: the call returns TTL 60 | the smallest record TTL raised to the floor, max(60, min TTL), here 300 | medium, not executed | Dns.LongTtlIsReportedAsFloor | Dns.PerformDnsLookupsFixedTtl |

The worker ignores the TTL. `Worker` calls `Dns.PerformDnsLookupsFixed`,
and `Dns.PerformDnsLookupsFixedAgrees` shows that its routes and error are
those of the as-written function.

## Left out

- The DNS wire exchange, `dns.Fqdn` and the parsing of the resolver configuration are part of the `Dns.Resolver` oracle. They are network and file I/O.
- `net.LookupIP` is the `Cli.LookupIP` oracle. An address is reduced to its text and its `To4() != nil` test.
- Shell execution, the space-splitting of the command (`utils.RunShellCommand`, main.go:78-80) and command output are reduced to a success oracle. They are process I/O. `RunShellCommand` is called by the worker only outside test mode, so its own test-mode branch is not modelled.
- The route-approval API (`tailscale`, `setTailscaleApprovedSubnets`, `getTailsScaleClientRouteSettings`) is reduced to a "routes published" effect, with an error oracle in the worker. HTTP and JSON are not modelled.
- Slack posting is reduced to "error posted" and "route update posted" effects. Delivery and its `log.Fatal` on failure are not modelled. `slack.PostRouteUpdateSQS` is called by the worker; only the call is recorded.
- YAML configuration loading, the global `ActiveConfig` and the CLI wiring are out of scope. The configuration is a value.
- Parsing a CloudTrail event is an oracle. Only the interface description the update uses is kept.
- Receiving from and deleting on SQS, the AWS session, the two-minute sleep and logging are I/O and timing. They are recorded as effects or parameters. `log.Fatal` and `os.Exit` are the `Exited` ending.
- Worker.Run: the endless `for` loop is modelled over a finite sequence of iterations, each with its own poll and environment.
- Command.Render: general `fmt.Sprintf` is not modelled. A template is its text before and after a single `%s`.
- Command.RoutesOfCommandLine: an empty route list renders as the empty argument, which `strings.Split` turns into one empty piece. A route holding a comma cannot be recovered either. Both cases are excluded.

=== FILE: cli.dfy ===
/** The one-shot `run` command of `main.go`: resolve the sites with the
    platform resolver, append the static subnets, fill the command template,
    and, outside test mode, run the command and then publish the routes. */
module Cli {
  import opened Wrappers
  import opened Effects
  import Command
  import Dns
  import Text

  /** An address as `net.LookupIP` returns it: its text (`ip.String()`) and
      whether it has a four-byte form (`ip.To4() != nil`). */
  datatype Address = Address(text: string, isIpv4: bool)

  /** The platform resolver: every address of a host, or an error. */
  type LookupIP = string -> Result<seq<Address>, string>

  datatype Config = Config(
    subnets: seq<string>,
    sites: seq<string>,
    command: Command.Template,
    enableIpv6: bool)

  predicate HasSuffix(s: string, suffix: string)
  {
    |suffix| <= |s| && s[|s| - |suffix|..] == suffix
  }

  /** A host route of this resolver: a /32, or a /128 when IPv6 is enabled. */
  predicate IsHostRoute(s: string, enableIpv6: bool)
  {
    HasSuffix(s, Dns.Ipv4Mask) || (enableIpv6 && HasSuffix(s, Dns.Ipv6Mask))
  }

  /** The route an address contributes: `/32` for an IPv4 address, `/128`
      for any other address, which is kept only when IPv6 is enabled. */
  function AddressRoute(ip: Address, enableIpv6: bool): (route: Option<string>)
    ensures ip.isIpv4 ==> route == Some(ip.text + Dns.Ipv4Mask)
    ensures !ip.isIpv4 ==> route == (if enableIpv6 then Some(ip.text + Dns.Ipv6Mask) else None)
    ensures route.Some? ==> IsHostRoute(route.value, enableIpv6)
  {
    if ip.isIpv4 then Some(ip.text + Dns.Ipv4Mask)
    else if enableIpv6 then Some(ip.text + Dns.Ipv6Mask)
    else None
  }

  /** The routes of one site's addresses, in resolver order. */
  function AddressRoutes(ips: seq<Address>, enableIpv6: bool): (routes: seq<string>)
    ensures |routes| <= |ips|
    ensures forall s :: s in routes <==> exists ip :: ip in ips && AddressRoute(ip, enableIpv6) == Some(s)
    ensures forall k :: 0 <= k < |routes| ==> IsHostRoute(routes[k], enableIpv6)
  {
    if |ips| == 0 then []
    else
      var rest := AddressRoutes(ips[1..], enableIpv6);
      assert forall ip :: ip in ips <==> ip == ips[0] || ip in ips[1..];
      match AddressRoute(ips[0], enableIpv6)
      case Some(route) => [route] + rest
      case None => rest
  }

  /** Routes follow resolver order and keep repeats: the routes of a split
      address list are the routes of its first part followed by those of its
      second. */
  lemma {:induction false} AddressRoutesAppend(a: seq<Address>, b: seq<Address>, enableIpv6: bool)
    ensures AddressRoutes(a + b, enableIpv6) == AddressRoutes(a, enableIpv6) + AddressRoutes(b, enableIpv6)
  {
    if |a| == 0 {
      assert a + b == b;
    } else {
      assert (a + b)[0] == a[0];
      assert (a + b)[1..] == a[1..] + b;
      AddressRoutesAppend(a[1..], b, enableIpv6);
    }
  }

  /** Without IPv6 every route is the /32 of an IPv4 address, and a list of
      IPv4 addresses is kept whole: one /32 per address, position for
      position. */
  lemma {:induction false} AddressRoutesIpv4Only(ips: seq<Address>)
    ensures forall s :: s in AddressRoutes(ips, false) ==>
              exists ip :: ip in ips && ip.isIpv4 && s == ip.text + Dns.Ipv4Mask
    ensures (forall i :: 0 <= i < |ips| ==> ips[i].isIpv4) ==>
              && |AddressRoutes(ips, false)| == |ips|
              && forall i :: 0 <= i < |ips| ==> AddressRoutes(ips, false)[i] == ips[i].text + Dns.Ipv4Mask
  {
    if |ips| > 0 {
      AddressRoutesIpv4Only(ips[1..]);
    }
  }

  /** The routes one site contributes; a site whose lookup fails is only
      logged and contributes none. */
  function SiteRoutes(lookup: LookupIP, site: string, enableIpv6: bool): (routes: seq<string>)
    ensures lookup(site).Failure? ==> routes == []
  {
    match lookup(site)
    case Failure(_) => []
    case Success(ips) => AddressRoutes(ips, enableIpv6)
  }

  /** `PerformDNSLookups` of `main.go`: every route is a host route, /32
      only unless IPv6 is enabled. */
  function PerformDnsLookups(lookup: LookupIP, sites: seq<string>, config: Config): (routes: seq<string>)
    ensures forall k :: 0 <= k < |routes| ==> IsHostRoute(routes[k], config.enableIpv6)
  {
    if |sites| == 0 then []
    else SiteRoutes(lookup, sites[0], config.enableIpv6) + PerformDnsLookups(lookup, sites[1..], config)
  }

  /** Output follows site order: the routes of a split list are the routes of
      its first part followed by those of its second. */
  lemma {:induction false} PerformDnsLookupsAppend(lookup: LookupIP, a: seq<string>, b: seq<string>, config: Config)
    ensures PerformDnsLookups(lookup, a + b, config) == PerformDnsLookups(lookup, a, config) + PerformDnsLookups(lookup, b, config)
  {
    if |a| == 0 {
      assert a + b == b;
    } else {
      assert (a + b)[0] == a[0];
      assert (a + b)[1..] == a[1..] + b;
      PerformDnsLookupsAppend(lookup, a[1..], b, config);
    }
  }

  /** A resolving site contributes the routes of its addresses, in the
      resolver's order. */
  lemma ResolvingSiteRoutes(lookup: LookupIP, site: string, config: Config)
    requires lookup(site).Success?
    ensures PerformDnsLookups(lookup, [site], config) == AddressRoutes(lookup(site).value, config.enableIpv6)
  {
  }

  /** A site whose lookup fails is dropped without affecting any other site. */
  lemma {:induction false} FailingSiteIsSkipped(lookup: LookupIP, sites: seq<string>, i: nat, config: Config)
    requires i < |sites|
    requires lookup(sites[i]).Failure?
    ensures PerformDnsLookups(lookup, sites, config) == PerformDnsLookups(lookup, sites[..i] + sites[i + 1..], config)
  {
    var before, failing, after := sites[..i], [sites[i]], sites[i + 1..];
    assert sites == before + (failing + after);
    assert PerformDnsLookups(lookup, failing, config) == [] by {
      assert failing[1..] == [];
    }
    PerformDnsLookupsAppend(lookup, before, failing + after, config);
    PerformDnsLookupsAppend(lookup, failing, after, config);
    PerformDnsLookupsAppend(lookup, before, after, config);
  }

  /** A route is produced exactly when some site resolves to an address
      whose route it is. */
  lemma {:induction false} PerformDnsLookupsMembership(lookup: LookupIP, sites: seq<string>, config: Config, s: string)
    ensures s in PerformDnsLookups(lookup, sites, config) <==>
              exists i, ip :: 0 <= i < |sites| && lookup(sites[i]).Success? && ip in lookup(sites[i]).value
                              && AddressRoute(ip, config.enableIpv6) == Some(s)
  {
    if |sites| > 0 {
      PerformDnsLookupsMembership(lookup, sites[1..], config, s);
      if exists i, ip :: 0 <= i < |sites| && lookup(sites[i]).Success? && ip in lookup(sites[i]).value
                         && AddressRoute(ip, config.enableIpv6) == Some(s) {
        var i, ip :| 0 <= i < |sites| && lookup(sites[i]).Success? && ip in lookup(sites[i]).value
                     && AddressRoute(ip, config.enableIpv6) == Some(s);
        if i > 0 {
          assert sites[1..][i - 1] == sites[i];
        }
      }
      if s in PerformDnsLookups(lookup, sites[1..], config) {
        var i, ip :| 0 <= i < |sites[1..]| && lookup(sites[1..][i]).Success? && ip in lookup(sites[1..][i]).value
                     && AddressRoute(ip, config.enableIpv6) == Some(s);
        assert sites[i + 1] == sites[1..][i];
      }
    }
  }

  /** The list `runUpdates` applies: resolved routes followed by the static
      subnets, not deduplicated. Every entry of either part is kept, so the
      length is the sum of the two. */
  function FinalRoutes(config: Config, lookup: LookupIP): (routes: seq<string>)
    ensures |routes| == |PerformDnsLookups(lookup, config.sites, config)| + |config.subnets|
    ensures forall s :: s in routes <==> s in PerformDnsLookups(lookup, config.sites, config) || s in config.subnets
    ensures multiset(routes) == multiset(PerformDnsLookups(lookup, config.sites, config)) + multiset(config.subnets)
  {
    PerformDnsLookups(lookup, config.sites, config) + config.subnets
  }

  /** A static subnet that is also resolved appears twice in the applied
      list: `runUpdates` does not deduplicate. */
  lemma FinalRoutesKeepsDuplicates(config: Config, lookup: LookupIP, s: string)
    requires s in PerformDnsLookups(lookup, config.sites, config) && s in config.subnets
    ensures exists i, j :: 0 <= i < j < |FinalRoutes(config, lookup)|
              && FinalRoutes(config, lookup)[i] == s && FinalRoutes(config, lookup)[j] == s
  {
    var resolved := PerformDnsLookups(lookup, config.sites, config);
    var routes := FinalRoutes(config, lookup);
    var i :| 0 <= i < |resolved| && resolved[i] == s;
    var j :| 0 <= j < |config.subnets| && config.subnets[j] == s;
    assert routes[i] == s;
    assert routes[|resolved| + j] == s;
  }

  /** `runUpdates` of `main.go`. In test mode nothing is executed. Otherwise
      the command runs; if it fails the process exits with status 1 and
      nothing is published; if it succeeds the routes are published (a
      publish error is only printed). */
  function RunUpdates(config: Config, testMode: bool, lookup: LookupIP, commandSucceeds: string -> bool): (t: Trace)
    ensures testMode ==> t == Trace([], Finished)
    ensures Publishes(t.effects) <==>
              !testMode && commandSucceeds(Command.CommandLine(config.command, FinalRoutes(config, lookup)))
    ensures t.ending.Exited? <==>
              !testMode && !commandSucceeds(Command.CommandLine(config.command, FinalRoutes(config, lookup)))
    ensures forall i :: 0 <= i < |t.effects| && t.effects[i].RoutesPublished? ==>
              && t.effects[i].routes == PerformDnsLookups(lookup, config.sites, config) + config.subnets
              && 0 < i && t.effects[i - 1] == CommandRun(Command.CommandLine(config.command, t.effects[i].routes))
              && commandSucceeds(t.effects[i - 1].command)
    ensures t.ending.Exited? ==> t.ending.code == 1
    ensures !testMode ==>
              |t.effects| > 0 && t.effects[0] == CommandRun(Command.CommandLine(config.command, FinalRoutes(config, lookup)))
  {
    var routes := FinalRoutes(config, lookup);
    var command := Command.CommandLine(config.command, routes);
    if testMode then Trace([], Finished)
    else if !commandSucceeds(command) then Trace([CommandRun(command)], Exited(1))
    else
      var t := Trace([CommandRun(command), RoutesPublished(routes)], Finished);
      assert t.effects[1].RoutesPublished?;
      t
  }

  /** The published list can be read back from the command that ran just
      before it, when it is non-empty and no route holds a comma. */
  lemma PublishedRoutesMatchCommand(config: Config, testMode: bool, lookup: LookupIP, commandSucceeds: string -> bool, i: nat)
    requires var t := RunUpdates(config, testMode, lookup, commandSucceeds);
             i < |t.effects| && t.effects[i].RoutesPublished?
    requires var routes := RunUpdates(config, testMode, lookup, commandSucceeds).effects[i].routes;
             |routes| > 0 && forall k :: 0 <= k < |routes| ==> Command.RouteSeparator !in routes[k]
    ensures var t := RunUpdates(config, testMode, lookup, commandSucceeds);
            var arg := Command.Argument(config.command, t.effects[i - 1].command);
            arg.Some? && Text.Split(arg.value, Command.RouteSeparator) == t.effects[i].routes
  {
    var t := RunUpdates(config, testMode, lookup, commandSucceeds);
    Command.RoutesOfCommandLine(config.command, t.effects[i].routes);
  }
}

=== FILE: command.dfy ===
/** The local apply command: a configured template with one `%s` placeholder
    that `fmt.Sprintf` fills with the comma-joined route list. The template is
    represented by the text before and after its placeholder. */
module Command {
  import opened Wrappers
  import Text

  datatype Template = Template(prefix: string, suffix: string)

  /** The separator `runUpdates` joins the routes with. */
  const RouteSeparator: char := ','

  /** `fmt.Sprintf(template, argument)` for a single-placeholder template. */
  function Render(t: Template, argument: string): (command: string)
    ensures |command| == |t.prefix| + |argument| + |t.suffix|
    ensures command[..|t.prefix|] == t.prefix
    ensures command[|t.prefix|..|t.prefix| + |argument|] == argument
    ensures command[|t.prefix| + |argument|..] == t.suffix
  {
    t.prefix + argument + t.suffix
  }

  /** Reads the placeholder's value back out of a rendered command, if the
      command has the template's shape. */
  function Argument(t: Template, command: string): (argument: Option<string>)
    ensures argument.Some? ==> Render(t, argument.value) == command
  {
    if |command| >= |t.prefix| + |t.suffix|
       && command[..|t.prefix|] == t.prefix
       && command[|command| - |t.suffix|..] == t.suffix
    then
      var a := command[|t.prefix|..|command| - |t.suffix|];
      assert command == command[..|t.prefix|] + a + command[|command| - |t.suffix|..];
      Some(a)
    else None
  }

  lemma ArgumentOfRender(t: Template, argument: string)
    ensures Argument(t, Render(t, argument)) == Some(argument)
  {
    var c := Render(t, argument);
    assert c[|c| - |t.suffix|..] == t.suffix;
  }

  /** The command `runUpdates` runs for a route list: the template filled with
      `strings.Join(routes, ",")`. */
  function CommandLine(t: Template, routes: seq<string>): (command: string)
    ensures Argument(t, command) == Some(Text.Join(routes, [RouteSeparator]))
  {
    ArgumentOfRender(t, Text.Join(routes, [RouteSeparator]));
    Render(t, Text.Join(routes, [RouteSeparator]))
  }

  /** The command carries the route list losslessly: the routes can be read
      back from it, as long as there is at least one and none holds a comma. */
  lemma RoutesOfCommandLine(t: Template, routes: seq<string>)
    requires |routes| > 0
    requires forall i :: 0 <= i < |routes| ==> RouteSeparator !in routes[i]
    ensures Argument(t, CommandLine(t, routes)).Some?
    ensures Text.Split(Argument(t, CommandLine(t, routes)).value, RouteSeparator) == routes
  {
    Text.SplitJoin(routes, RouteSeparator);
  }

  /** Two route lists that render to the same command are the same list. */
  lemma CommandLineInjective(t: Template, a: seq<string>, b: seq<string>)
    requires |a| > 0 && |b| > 0
    requires forall i :: 0 <= i < |a| ==> RouteSeparator !in a[i]
    requires forall i :: 0 <= i < |b| ==> RouteSeparator !in b[i]
    requires CommandLine(t, a) == CommandLine(t, b)
    ensures a == b
  {
    RoutesOfCommandLine(t, a);
    RoutesOfCommandLine(t, b);
  }
}

=== FILE: dedupe.dfy ===
/** `utils.Unique`: removes repeated entries from a list, keeping the first
    occurrence of each. */
module Dedupe {

  predicate NoDuplicates<T(==)>(xs: seq<T>)
  {
    forall i, j :: 0 <= i < j < |xs| ==> xs[i] != xs[j]
  }

  /** The position at which `x` first occurs in `xs`. */
  function FirstIndex<T(==)>(xs: seq<T>, x: T): (k: nat)
    requires x in xs
    ensures k < |xs| && xs[k] == x && x !in xs[..k]
  {
    if xs[0] == x then 0
    else
      var k := 1 + FirstIndex(xs[1..], x);
      assert xs[..k] == [xs[0]] + xs[1..][..k - 1];
      k
  }

  /** The list with every entry that already occurred earlier dropped. It is
      defined by the last entry so that the loop of `UniqueLoop`, which
      extends a prefix one entry at a time, matches it step by step. */
  function Unique<T(==,!new)>(xs: seq<T>): (r: seq<T>)
    ensures NoDuplicates(r)
    ensures forall x :: x in r <==> x in xs
    ensures |r| <= |xs|
  {
    if |xs| == 0 then []
    else
      var init := xs[..|xs| - 1];
      var last := xs[|xs| - 1];
      var u := Unique(init);
      assert xs == init + [last];
      if last in init then u else u + [last]
  }

  /** The loop of `utils.Unique`: a set of keys seen so far and the output
      list, extended by every entry whose key is new. */
  method UniqueLoop<T(==,!new)>(slice: seq<T>) returns (list: seq<T>)
    ensures list == Unique(slice)
    ensures NoDuplicates(list)
  {
    var keys: set<T> := {};
    list := [];
    var i := 0;
    while i < |slice|
      invariant 0 <= i <= |slice|
      invariant list == Unique(slice[..i])
      invariant forall x :: x in keys <==> x in slice[..i]
    {
      var entry := slice[i];
      assert slice[..i + 1][..i] == slice[..i];
      assert slice[..i + 1][i] == entry;
      if entry !in keys {
        keys := keys + {entry};
        list := list + [entry];
      }
      i := i + 1;
    }
    assert slice[..|slice|] == slice;
  }

  /** On a list without repeats `Unique` changes nothing. */
  lemma {:induction false} UniqueOfDistinct<T(!new)>(xs: seq<T>)
    requires NoDuplicates(xs)
    ensures Unique(xs) == xs
  {
    if |xs| > 0 {
      var init := xs[..|xs| - 1];
      assert NoDuplicates(init);
      UniqueOfDistinct(init);
      assert xs[|xs| - 1] !in init;
      assert init + [xs[|xs| - 1]] == xs;
    }
  }

  lemma UniqueIdempotent<T(!new)>(xs: seq<T>)
    ensures Unique(Unique(xs)) == Unique(xs)
  {
    UniqueOfDistinct(Unique(xs));
  }

  /** The output lists the distinct entries in the order of their first
      occurrence in the input: it is the subsequence of first occurrences. */
  lemma {:induction false} UniqueFirstSeenOrder<T(!new)>(xs: seq<T>)
    ensures forall i, j :: 0 <= i < j < |Unique(xs)| ==>
              FirstIndex(xs, Unique(xs)[i]) < FirstIndex(xs, Unique(xs)[j])
  {
    if |xs| > 0 {
      var init := xs[..|xs| - 1];
      var last := xs[|xs| - 1];
      var u := Unique(init);
      var r := Unique(xs);
      UniqueFirstSeenOrder(init);
      assert xs == init + [last];
      forall y | y in init
        ensures FirstIndex(xs, y) == FirstIndex(init, y)
      {
        FirstIndexOfPrefix(init, [last], y);
      }
      if last !in init {
        assert FirstIndex(xs, last) == |xs| - 1;
        forall i, j | 0 <= i < j < |r|
          ensures FirstIndex(xs, r[i]) < FirstIndex(xs, r[j])
        {
          if j < |u| {
            assert r[i] == u[i] && r[j] == u[j];
          } else {
            assert r[i] == u[i] && r[i] in init;
          }
        }
      }
    }
  }

  lemma FirstIndexOfPrefix<T>(a: seq<T>, b: seq<T>, y: T)
    requires y in a
    ensures FirstIndex(a + b, y) == FirstIndex(a, y)
  {
    var k := FirstIndex(a, y);
    assert (a + b)[k] == y;
    assert (a + b)[..k] == a[..k];
  }
}

=== FILE: dns.dfy ===
/** The DNS half of `utils`: the answer filter of `lookupIPsWithTTL`, the
    lookup itself against an abstract resolver, and `PerformDNSLookups`,
    which turns the lookups of a list of sites into host routes and a TTL. */
module Dns {
  import opened Wrappers

  /** A record header's TTL: a `uint32`, widened to Go's `int` unchanged. */
  type Ttl = x: int | 0 <= x < 0x1_0000_0000

  /** One answer of a DNS response; every record type other than A and AAAA
      is an `OtherRecord`. Addresses are their textual form. */
  datatype Answer =
    | A(address: string, ttl: Ttl)
    | AAAA(address: string, ttl: Ttl)
    | OtherRecord(rrtype: string, ttl: Ttl)

  datatype IPWithTTL = IPWithTTL(ip: string, ttl: Ttl)

  datatype QType = TypeA | TypeAAAA

  /** The system resolver: the outcome of reading the resolver configuration
      (its nameserver list, or the error) and the query exchange, a function
      of the server address, the host and the question type. */
  datatype Resolver = Resolver(
    servers: Result<seq<string>, string>,
    exchange: (string, string, QType) -> Result<seq<Answer>, string>)

  const NoSystemDns: string := "Could not find system DNS: "
  const DnsPort: string := ":53"
  const TtlFloor: int := 60
  const Ipv4Mask: string := "/32"
  const Ipv6Mask: string := "/128"

  predicate IsAddress(a: Answer)
  {
    a.A? || a.AAAA?
  }

  /** `getSystemDNS`: the first configured nameserver; an error when the
      configuration cannot be read or lists no server (Go then formats the
      nil error as "<nil>"). */
  function SystemDns(servers: Result<seq<string>, string>): (r: Result<string, string>)
    ensures r.Success? <==> servers.Success? && |servers.value| > 0
    ensures r.Success? ==> r.value == servers.value[0]
    ensures r.Failure? ==> NoSystemDns <= r.error
  {
    match servers
    case Failure(e) => Failure(NoSystemDns + e)
    case Success(list) =>
      if |list| == 0 then Failure(NoSystemDns + "<nil>") else Success(list[0])
  }

  /** The question type `lookupIPsWithTTL` asks: AAAA when IPv6 is wanted,
      otherwise A (never both). */
  function QuestionType(enableIpv6: bool): (q: QType)
    ensures q == TypeAAAA <==> enableIpv6
  {
    if enableIpv6 then TypeAAAA else TypeA
  }

  /** The answer loop of `lookupIPsWithTTL`: the A and AAAA answers, in
      order, each with its address and its TTL unchanged. */
  function FilterAnswers(answers: seq<Answer>): (r: seq<IPWithTTL>)
    ensures |r| <= |answers|
    ensures forall x :: x in r <==>
              exists a :: a in answers && IsAddress(a) && x == IPWithTTL(a.address, a.ttl)
  {
    if |answers| == 0 then []
    else
      var rest := FilterAnswers(answers[1..]);
      assert forall a :: a in answers <==> a == answers[0] || a in answers[1..];
      match answers[0]
      case A(ip, ttl) => [IPWithTTL(ip, ttl)] + rest
      case AAAA(ip, ttl) => [IPWithTTL(ip, ttl)] + rest
      case OtherRecord(_, _) => rest
  }

  /** The filter keeps answers in response order: it distributes over
      concatenation. */
  lemma {:induction false} FilterAnswersAppend(a: seq<Answer>, b: seq<Answer>)
    ensures FilterAnswers(a + b) == FilterAnswers(a) + FilterAnswers(b)
  {
    if |a| > 0 {
      assert (a + b)[0] == a[0];
      assert (a + b)[1..] == a[1..] + b;
      FilterAnswersAppend(a[1..], b);
    } else {
      assert a + b == b;
    }
  }

  /** A response made only of A and AAAA answers is kept whole, entry for entry. */
  lemma {:induction false} FilterAnswersOfAddresses(answers: seq<Answer>)
    requires forall i :: 0 <= i < |answers| ==> IsAddress(answers[i])
    ensures |FilterAnswers(answers)| == |answers|
    ensures forall i :: 0 <= i < |answers| ==>
              IsAddress(answers[i]) && FilterAnswers(answers)[i] == IPWithTTL(answers[i].address, answers[i].ttl)
  {
    if |answers| > 0 {
      FilterAnswersOfAddresses(answers[1..]);
    }
  }

  /** `lookupIPsWithTTL`: one query of the first system nameserver on port 53,
      filtered to its address answers. Fails when there is no nameserver or
      the exchange fails. */
  function LookupIPsWithTTL(r: Resolver, host: string, enableIpv6: bool): (res: Result<seq<IPWithTTL>, string>)
    ensures SystemDns(r.servers).Failure? ==> res == Failure(SystemDns(r.servers).error)
    ensures SystemDns(r.servers).Success? ==>
              var reply := r.exchange(SystemDns(r.servers).value + DnsPort, host, QuestionType(enableIpv6));
              (res.Failure? <==> reply.Failure?) &&
              (res.Success? ==> res.value == FilterAnswers(reply.value))
  {
    match SystemDns(r.servers)
    case Failure(e) => Failure(e)
    case Success(server) =>
      match r.exchange(server + DnsPort, host, QuestionType(enableIpv6))
      case Failure(e) => Failure(e)
      case Success(answers) => Success(FilterAnswers(answers))
  }

  function Mask(ipv6: bool): string
  {
    if ipv6 then Ipv6Mask else Ipv4Mask
  }

  /** Each record's address with the mask appended, in record order. */
  function Masked(records: seq<IPWithTTL>, mask: string): (r: seq<string>)
    ensures |r| == |records|
    ensures forall i :: 0 <= i < |r| ==> r[i] == records[i].ip + mask
  {
    if |records| == 0 then [] else [records[0].ip + mask] + Masked(records[1..], mask)
  }

  /** The running minimum of `PerformDNSLookups`: `lowest` lowered to every
      record TTL below it. */
  function LowerTtl(lowest: int, records: seq<IPWithTTL>): (l: int)
    ensures l <= lowest
    ensures forall i :: 0 <= i < |records| ==> l <= records[i].ttl
    ensures l == lowest || exists i :: 0 <= i < |records| && l == records[i].ttl
  {
    if |records| == 0 then lowest
    else
      var next := if records[0].ttl < lowest then records[0].ttl else lowest;
      LowerTtl(next, records[1..])
  }

  lemma MaskedAppend(a: seq<IPWithTTL>, b: seq<IPWithTTL>, mask: string)
    ensures Masked(a + b, mask) == Masked(a, mask) + Masked(b, mask)
  {
  }

  lemma {:induction false} LowerTtlAppend(lowest: int, a: seq<IPWithTTL>, b: seq<IPWithTTL>)
    ensures LowerTtl(lowest, a + b) == LowerTtl(LowerTtl(lowest, a), b)
  {
    if |a| > 0 {
      assert (a + b)[0] == a[0];
      assert (a + b)[1..] == a[1..] + b;
      var next := if a[0].ttl < lowest then a[0].ttl else lowest;
      LowerTtlAppend(next, a[1..], b);
    } else {
      assert a + b == b;
    }
  }

  predicate AllResolve(r: Resolver, sites: seq<string>, ipv6: bool)
  {
    forall i :: 0 <= i < |sites| ==> LookupIPsWithTTL(r, sites[i], ipv6).Success?
  }

  /** Every record one pass over the sites collects, site by site; a site
      whose lookup fails contributes nothing. */
  function PassRecords(r: Resolver, sites: seq<string>, ipv6: bool): seq<IPWithTTL>
  {
    if |sites| == 0 then []
    else
      var here := match LookupIPsWithTTL(r, sites[0], ipv6)
        case Success(records) => records
        case Failure(_) => [];
      here + PassRecords(r, sites[1..], ipv6)
  }

  /** The host routes one pass produces, in site order and, within a site,
      in answer order. */
  function PassSubnets(r: Resolver, sites: seq<string>, ipv6: bool): seq<string>
  {
    Masked(PassRecords(r, sites, ipv6), Mask(ipv6))
  }

  datatype PassResult =
    | PassDone(subnets: seq<string>, lowest: int)
    | PassFailed(error: string, lowest: int)

  /** One `for _, site := range sites` loop of `PerformDNSLookups`, with the
      running minimum TTL threaded through; the first failing lookup ends it. */
  function LookupPass(r: Resolver, sites: seq<string>, ipv6: bool, lowest: int): (p: PassResult)
    ensures p.lowest <= lowest
    ensures p.PassDone? <==> AllResolve(r, sites, ipv6)
  {
    if |sites| == 0 then PassDone([], lowest)
    else
      match LookupIPsWithTTL(r, sites[0], ipv6)
      case Failure(e) => PassFailed(e, lowest)
      case Success(results) =>
        var l := LowerTtl(lowest, results);
        var rest := LookupPass(r, sites[1..], ipv6, l);
        assert AllResolve(r, sites, ipv6) <==> AllResolve(r, sites[1..], ipv6) by {
          assert forall i :: 0 < i < |sites| ==> sites[i] == sites[1..][i - 1];
        }
        match rest
        case PassFailed(e, l') => PassFailed(e, l')
        case PassDone(s, l') => PassDone(Masked(results, Mask(ipv6)) + s, l')
  }

  /** A completed pass yields exactly the masked records of all sites, and
      its running minimum has seen every one of their TTLs. */
  lemma {:induction false} LookupPassCollects(r: Resolver, sites: seq<string>, ipv6: bool, lowest: int)
    requires LookupPass(r, sites, ipv6, lowest).PassDone?
    ensures LookupPass(r, sites, ipv6, lowest).subnets == PassSubnets(r, sites, ipv6)
    ensures LookupPass(r, sites, ipv6, lowest).lowest == LowerTtl(lowest, PassRecords(r, sites, ipv6))
  {
    if |sites| > 0 {
      var results := LookupIPsWithTTL(r, sites[0], ipv6).value;
      var l := LowerTtl(lowest, results);
      LookupPassCollects(r, sites[1..], ipv6, l);
      MaskedAppend(results, PassRecords(r, sites[1..], ipv6), Mask(ipv6));
      LowerTtlAppend(lowest, results, PassRecords(r, sites[1..], ipv6));
    }
  }

  /** A failed pass reports the error of the first site whose lookup fails. */
  lemma {:induction false} LookupPassFirstError(r: Resolver, sites: seq<string>, ipv6: bool, lowest: int)
    requires LookupPass(r, sites, ipv6, lowest).PassFailed?
    ensures exists i :: 0 <= i < |sites| && AllResolve(r, sites[..i], ipv6)
              && LookupIPsWithTTL(r, sites[i], ipv6) == Failure(LookupPass(r, sites, ipv6, lowest).error)
  {
    var p := LookupPass(r, sites, ipv6, lowest);
    if LookupIPsWithTTL(r, sites[0], ipv6).Failure? {
      assert AllResolve(r, sites[..0], ipv6);
    } else {
      var l := LowerTtl(lowest, LookupIPsWithTTL(r, sites[0], ipv6).value);
      var tail := sites[1..];
      assert LookupPass(r, tail, ipv6, l).error == p.error;
      LookupPassFirstError(r, tail, ipv6, l);
      var i :| 0 <= i < |tail| && AllResolve(r, tail[..i], ipv6)
               && LookupIPsWithTTL(r, tail[i], ipv6) == Failure(p.error);
      var prefix := sites[..i + 1];
      assert prefix == [sites[0]] + tail[..i];
      assert forall k :: 0 < k < |prefix| ==> prefix[k] == tail[..i][k - 1];
      assert AllResolve(r, prefix, ipv6);
      assert sites[i + 1] == tail[i];
    }
  }

  /** What `PerformDNSLookups` returns: the route list, the TTL and the error
      (`None` for Go's nil). */
  datatype Lookups = Lookups(subnets: seq<string>, ttl: int, err: Option<string>)

  function ClampTtl(lowest: int): int
  {
    if lowest < TtlFloor then TtlFloor else lowest
  }

  /** `utils.PerformDNSLookups`, as written: an IPv4 pass over all sites,
      then, if enabled, an IPv6 pass; the first failing lookup discards
      everything. The minimum TTL starts at the floor of 60 and is clamped
      back up to it, so a successful call always reports exactly 60. */
  function PerformDnsLookups(r: Resolver, sites: seq<string>, enableIPv6: bool): (o: Lookups)
    ensures o.err.None? <==> AllResolve(r, sites, false) && (enableIPv6 ==> AllResolve(r, sites, true))
    ensures o.err.None? ==> o.ttl == TtlFloor
    ensures o.err.Some? ==> o.subnets == [] && o.ttl <= TtlFloor
  {
    match LookupPass(r, sites, false, TtlFloor)
    case PassFailed(e, l) => Lookups([], l, Some(e))
    case PassDone(v4, l) =>
      if !enableIPv6 then Lookups(v4, ClampTtl(l), None)
      else
        match LookupPass(r, sites, true, l)
        case PassFailed(e, l2) => Lookups([], l2, Some(e))
        case PassDone(v6, l2) => Lookups(v4 + v6, ClampTtl(l2), None)
  }

  /** The error a failing call reports is that of the first failing lookup:
      the first site in the IPv4 pass, or, if every IPv4 lookup succeeds, the
      first site in the IPv6 pass. */
  lemma PerformDnsLookupsFirstError(r: Resolver, sites: seq<string>, enableIPv6: bool)
    requires PerformDnsLookups(r, sites, enableIPv6).err.Some?
    ensures var e := PerformDnsLookups(r, sites, enableIPv6).err.value;
            (exists i :: 0 <= i < |sites| && AllResolve(r, sites[..i], false)
               && LookupIPsWithTTL(r, sites[i], false) == Failure(e))
            || (enableIPv6 && AllResolve(r, sites, false)
                && exists i :: 0 <= i < |sites| && AllResolve(r, sites[..i], true)
                     && LookupIPsWithTTL(r, sites[i], true) == Failure(e))
  {
    var p4 := LookupPass(r, sites, false, TtlFloor);
    if p4.PassFailed? {
      LookupPassFirstError(r, sites, false, TtlFloor);
    } else {
      LookupPassFirstError(r, sites, true, p4.lowest);
    }
  }

  /** A successful call returns every IPv4-pass route (`/32`) followed by
      every IPv6-pass route (`/128`, only when IPv6 is enabled), each pass in
      site order and answer order. */
  lemma PerformDnsLookupsSubnets(r: Resolver, sites: seq<string>, enableIPv6: bool)
    requires PerformDnsLookups(r, sites, enableIPv6).err.None?
    ensures PerformDnsLookups(r, sites, enableIPv6).subnets ==
              PassSubnets(r, sites, false) + (if enableIPv6 then PassSubnets(r, sites, true) else [])
  {
    var p4 := LookupPass(r, sites, false, TtlFloor);
    LookupPassCollects(r, sites, false, TtlFloor);
    if enableIPv6 {
      LookupPassCollects(r, sites, true, p4.lowest);
    }
  }

  /** Every route of a pass is a record address with the pass's mask, and
      every address any site resolves to in that pass appears. */
  lemma {:induction false} PassSubnetsMembership(r: Resolver, sites: seq<string>, ipv6: bool, s: string)
    requires AllResolve(r, sites, ipv6)
    ensures s in PassSubnets(r, sites, ipv6) <==>
              exists i, x :: 0 <= i < |sites| && x in LookupIPsWithTTL(r, sites[i], ipv6).value
                             && s == x.ip + Mask(ipv6)
  {
    var recs := PassRecords(r, sites, ipv6);
    assert s in PassSubnets(r, sites, ipv6) <==> exists x :: x in recs && s == x.ip + Mask(ipv6) by {
      var m := PassSubnets(r, sites, ipv6);
      if s in m {
        var k :| 0 <= k < |m| && m[k] == s;
        assert recs[k] in recs;
      }
      forall x | x in recs && s == x.ip + Mask(ipv6) ensures s in m {
        var k :| 0 <= k < |recs| && recs[k] == x;
        assert m[k] == s;
      }
    }
    PassRecordsMembership(r, sites, ipv6);
  }

  lemma {:induction false} PassRecordsMembership(r: Resolver, sites: seq<string>, ipv6: bool)
    requires AllResolve(r, sites, ipv6)
    ensures forall x :: x in PassRecords(r, sites, ipv6) <==>
              exists i :: 0 <= i < |sites| && x in LookupIPsWithTTL(r, sites[i], ipv6).value
  {
    if |sites| > 0 {
      assert AllResolve(r, sites[1..], ipv6) by {
        assert forall i :: 0 <= i < |sites| - 1 ==> sites[1..][i] == sites[i + 1];
      }
      PassRecordsMembership(r, sites[1..], ipv6);
      forall x
        ensures x in PassRecords(r, sites, ipv6) <==>
                exists i :: 0 <= i < |sites| && x in LookupIPsWithTTL(r, sites[i], ipv6).value
      {
        if x in PassRecords(r, sites[1..], ipv6) {
          var i :| 0 <= i < |sites[1..]| && x in LookupIPsWithTTL(r, sites[1..][i], ipv6).value;
          assert sites[i + 1] == sites[1..][i];
        }
        if exists i :: 0 <= i < |sites| && x in LookupIPsWithTTL(r, sites[i], ipv6).value {
          var i :| 0 <= i < |sites| && x in LookupIPsWithTTL(r, sites[i], ipv6).value;
          if i > 0 {
            assert sites[1..][i - 1] == sites[i];
          }
        }
      }
    }
  }

  /** Every route of a pass ends in that pass's mask. */
  lemma PassSubnetsMasked(r: Resolver, sites: seq<string>, ipv6: bool)
    ensures forall i :: 0 <= i < |PassSubnets(r, sites, ipv6)| ==>
              var s := PassSubnets(r, sites, ipv6)[i];
              |s| >= |Mask(ipv6)| && s[|s| - |Mask(ipv6)|..] == Mask(ipv6)
  {
  }

  /** The running minimum's starting value in the corrected lookup: above
      every `Ttl`, so any record lowers it. */
  const NoTtl: int := 0x1_0000_0000

  /** Every record a call collects: the IPv4 pass, then the IPv6 pass when
      it is enabled. */
  function AllRecords(r: Resolver, sites: seq<string>, enableIPv6: bool): seq<IPWithTTL>
  {
    PassRecords(r, sites, false) + (if enableIPv6 then PassRecords(r, sites, true) else [])
  }

  /** The TTL a corrected lookup reports for a running minimum: the floor
      when no record was seen, otherwise the minimum raised to the floor. */
  function EffectiveTtl(lowest: int): int
  {
    if lowest == NoTtl then TtlFloor else ClampTtl(lowest)
  }

  /** `PerformDNSLookups` with the TTL handling corrected: the minimum starts
      above every TTL instead of at the floor, so the reported TTL is the
      smallest record TTL raised to the floor of 60. Routes and errors are
      those of the as-written function. */
  function PerformDnsLookupsFixed(r: Resolver, sites: seq<string>, enableIPv6: bool): (o: Lookups)
    ensures o.ttl >= TtlFloor
  {
    match LookupPass(r, sites, false, NoTtl)
    case PassFailed(e, l) => Lookups([], EffectiveTtl(l), Some(e))
    case PassDone(v4, l) =>
      if !enableIPv6 then Lookups(v4, EffectiveTtl(l), None)
      else
        match LookupPass(r, sites, true, l)
        case PassFailed(e, l2) => Lookups([], EffectiveTtl(l2), Some(e))
        case PassDone(v6, l2) => Lookups(v4 + v6, EffectiveTtl(l2), None)
  }

  /** The corrected TTL is max(60, smallest record TTL): never below the
      floor, never above the floor or any record's TTL, either the floor or
      the TTL of some record, not below every record's TTL, and the floor
      when there is no record. */
  lemma PerformDnsLookupsFixedTtl(r: Resolver, sites: seq<string>, enableIPv6: bool)
    requires PerformDnsLookupsFixed(r, sites, enableIPv6).err.None?
    ensures var o := PerformDnsLookupsFixed(r, sites, enableIPv6);
            var recs := AllRecords(r, sites, enableIPv6);
            && o.ttl >= TtlFloor
            && (forall i :: 0 <= i < |recs| ==> o.ttl <= TtlFloor || o.ttl <= recs[i].ttl)
            && (o.ttl == TtlFloor || exists i :: 0 <= i < |recs| && o.ttl == recs[i].ttl)
            && (|recs| == 0 ==> o.ttl == TtlFloor)
            && (|recs| > 0 ==> exists i :: 0 <= i < |recs| && recs[i].ttl <= o.ttl)
  {
    var p4 := LookupPass(r, sites, false, NoTtl);
    LookupPassCollects(r, sites, false, NoTtl);
    var recs := AllRecords(r, sites, enableIPv6);
    var m := LowerTtl(NoTtl, recs);
    if enableIPv6 {
      LookupPassCollects(r, sites, true, p4.lowest);
      LowerTtlAppend(NoTtl, PassRecords(r, sites, false), PassRecords(r, sites, true));
    } else {
      assert recs == PassRecords(r, sites, false);
    }
    assert PerformDnsLookupsFixed(r, sites, enableIPv6).ttl == EffectiveTtl(m);
  }

  /** The running minimum never affects which routes a pass yields or how
      it fails. */
  lemma {:induction false} LookupPassIgnoresLowest(r: Resolver, sites: seq<string>, ipv6: bool, l1: int, l2: int)
    ensures LookupPass(r, sites, ipv6, l1).PassDone? == LookupPass(r, sites, ipv6, l2).PassDone?
    ensures LookupPass(r, sites, ipv6, l1).PassDone? ==>
              LookupPass(r, sites, ipv6, l1).subnets == LookupPass(r, sites, ipv6, l2).subnets
    ensures LookupPass(r, sites, ipv6, l1).PassFailed? ==>
              LookupPass(r, sites, ipv6, l1).error == LookupPass(r, sites, ipv6, l2).error
  {
    if |sites| > 0 && LookupIPsWithTTL(r, sites[0], ipv6).Success? {
      var results := LookupIPsWithTTL(r, sites[0], ipv6).value;
      LookupPassIgnoresLowest(r, sites[1..], ipv6, LowerTtl(l1, results), LowerTtl(l2, results));
    }
  }

  /** Correcting the TTL changes nothing else: the routes and the error are
      those of the as-written function. */
  lemma PerformDnsLookupsFixedAgrees(r: Resolver, sites: seq<string>, enableIPv6: bool)
    ensures PerformDnsLookupsFixed(r, sites, enableIPv6).subnets == PerformDnsLookups(r, sites, enableIPv6).subnets
    ensures PerformDnsLookupsFixed(r, sites, enableIPv6).err == PerformDnsLookups(r, sites, enableIPv6).err
  {
    var p4 := LookupPass(r, sites, false, NoTtl);
    var q4 := LookupPass(r, sites, false, TtlFloor);
    LookupPassIgnoresLowest(r, sites, false, NoTtl, TtlFloor);
    if p4.PassDone? && enableIPv6 {
      LookupPassIgnoresLowest(r, sites, true, p4.lowest, q4.lowest);
    }
  }

  /** A site with a single A record of TTL 300: the as-written function
      reports 60, the corrected one 300. */
  lemma LongTtlIsReportedAsFloor()
    ensures var r := Resolver(Success(["10.0.0.2"]), (server, host, q) => Success([A("10.0.0.1", 300)]));
            && PerformDnsLookups(r, ["example.com"], false) == Lookups(["10.0.0.1/32"], 60, None)
            && PerformDnsLookupsFixed(r, ["example.com"], false) == Lookups(["10.0.0.1/32"], 300, None)
  {
    var r := Resolver(Success(["10.0.0.2"]), (server, host, q) => Success([A("10.0.0.1", 300)]));
    var sites := ["example.com"];
    assert SystemDns(r.servers) == Success("10.0.0.2");
    assert r.exchange("10.0.0.2" + DnsPort, sites[0], TypeA) == Success([A("10.0.0.1", 300)]);
    assert FilterAnswers([A("10.0.0.1", 300)]) == [IPWithTTL("10.0.0.1", 300)];
    assert LookupIPsWithTTL(r, sites[0], false) == Success([IPWithTTL("10.0.0.1", 300)]);
    assert sites[1..] == [];
    assert LowerTtl(TtlFloor, [IPWithTTL("10.0.0.1", 300)]) == 60;
    assert LowerTtl(NoTtl, [IPWithTTL("10.0.0.1", 300)]) == 300;
    assert "10.0.0.1" + Ipv4Mask == "10.0.0.1/32";
    assert Masked([IPWithTTL("10.0.0.1", 300)], Ipv4Mask) == ["10.0.0.1/32"];
    assert LookupPass(r, sites, false, TtlFloor) == PassDone(["10.0.0.1/32"], 60);
  }
}

=== FILE: effects.dfy ===
/** The observable side effects of one update run, in the order they happen,
    and how the run ends. The shell, the route-approval API, Slack and the
    queue are not modelled; each call to them is recorded as an effect. */
module Effects {

  datatype Effect =
    | SettleWait(seconds: nat)                              // time.Sleep before updating
    | ErrorPosted(reason: string)                           // slack.PostError
    | CommandRun(command: string)                           // the local apply command was executed
    | RouteUpdatePosted(description: string, clientId: string)  // slack route-update notice
    | RoutesPublished(routes: seq<string>)                  // POST of the approved routes
    | MessageDeleted(receipt: string)                       // queue message acknowledged

  /** `Exited(code)` stands for `os.Exit` / `log.Fatal`: nothing follows it. */
  datatype Ending = Finished | Exited(code: int)

  datatype Trace = Trace(effects: seq<Effect>, ending: Ending)

  predicate Publishes(effects: seq<Effect>)
  {
    exists i :: 0 <= i < |effects| && effects[i].RoutesPublished?
  }

  predicate RunsCommand(effects: seq<Effect>)
  {
    exists i :: 0 <= i < |effects| && effects[i].CommandRun?
  }

  /** `block` occurs in `effects` from index `j` on, with nothing between
      its entries. */
  predicate BlockAt(effects: seq<Effect>, j: int, block: seq<Effect>)
  {
    0 <= j <= |effects| - |block| && effects[j..j + |block|] == block
  }

  /** A block placed between two lists occurs right after the first. */
  lemma BlockAtAppend(before: seq<Effect>, block: seq<Effect>, after: seq<Effect>)
    ensures BlockAt(before + block + after, |before|, block)
  {
  }
}

=== FILE: text.dfy ===
/** The two string operations the route lists pass through: `strings.Join`
    (building the command argument) and its inverse `strings.Split` on a
    one-character separator. */
module Text {

  /** Go's `strings.Join`: the elements with `sep` between consecutive ones;
      the empty list joins to the empty string. */
  function Join(parts: seq<string>, sep: string): string
  {
    if |parts| == 0 then ""
    else if |parts| == 1 then parts[0]
    else parts[0] + sep + Join(parts[1..], sep)
  }

  /** Go's `strings.Split` with a one-character separator: the maximal
      separator-free pieces, in order; always at least one piece. */
  function Split(s: string, sep: char): (pieces: seq<string>)
    ensures |pieces| >= 1
  {
    if |s| == 0 then [""]
    else
      var rest := Split(s[1..], sep);
      if s[0] == sep then [""] + rest
      else [[s[0]] + rest[0]] + rest[1..]
  }

  lemma {:induction false} SplitWithoutSeparator(s: string, sep: char)
    requires sep !in s
    ensures Split(s, sep) == [s]
  {
    if |s| > 0 {
      SplitWithoutSeparator(s[1..], sep);
      assert [s[0]] + s[1..] == s;
    }
  }

  /** A separator-free prefix followed by the separator is split off as one piece. */
  lemma {:induction false} SplitAfterPiece(a: string, b: string, sep: char)
    requires sep !in a
    ensures Split(a + [sep] + b, sep) == [a] + Split(b, sep)
  {
    if |a| == 0 {
      assert a + [sep] + b == [sep] + b;
      assert ([sep] + b)[1..] == b;
    } else {
      var s := a + [sep] + b;
      assert s[0] == a[0];
      assert s[1..] == a[1..] + [sep] + b;
      SplitAfterPiece(a[1..], b, sep);
      assert [a[0]] + a[1..] == a;
    }
  }

  /** Splitting undoes joining, provided the list is non-empty and no element
      contains the separator. */
  lemma {:induction false} SplitJoin(parts: seq<string>, sep: char)
    requires |parts| > 0
    requires forall i :: 0 <= i < |parts| ==> sep !in parts[i]
    ensures Split(Join(parts, [sep]), sep) == parts
  {
    if |parts| == 1 {
      SplitWithoutSeparator(parts[0], sep);
    } else {
      SplitJoin(parts[1..], sep);
      SplitAfterPiece(parts[0], Join(parts[1..], [sep]), sep);
      assert [parts[0]] + parts[1..] == parts;
    }
  }

  /** Joining undoes splitting, for every string. */
  lemma {:induction false} JoinSplit(s: string, sep: char)
    ensures Join(Split(s, sep), [sep]) == s
  {
    if |s| > 0 {
      var rest := Split(s[1..], sep);
      JoinSplit(s[1..], sep);
      assert [s[0]] + s[1..] == s;
      if s[0] == sep {
        assert ([""] + rest)[1..] == rest;
      } else if |rest| > 1 {
        var pieces := [[s[0]] + rest[0]] + rest[1..];
        assert pieces[1..] == rest[1..];
        assert Join(rest, [sep]) == rest[0] + [sep] + Join(rest[1..], [sep]);
      }
    }
  }
}

=== FILE: worker.dfy ===
/** The queue-driven `worker`: each loop iteration takes at most one queue
    message, skips it if it does not parse, otherwise waits for DNS to
    settle, runs one update and then deletes the message. An update resolves
    the sites, deduplicates them together with the static subnets, and,
    outside test mode, runs the command and publishes the same list. */
module Worker {
  import opened Wrappers
  import opened Effects
  import Command
  import Dedupe
  import Dns

  datatype Config = Config(
    subnets: seq<string>,
    sites: seq<string>,
    command: Command.Template,
    enableIpv6: bool,
    clientId: string)

  /** The part of a parsed change event an update uses: the description of
      the changed network interface. */
  datatype Event = Event(description: string)

  /** The outside world of one update: the resolver, whether the shell
      command succeeds, and the error (if any) of publishing a route list. */
  datatype Env = Env(
    resolver: Dns.Resolver,
    commandSucceeds: string -> bool,
    publish: seq<string> -> Option<string>)

  /** How long the worker waits for DNS to settle before an update. */
  const SettleSeconds: nat := 120

  /** The list an update applies: resolved routes and static subnets, each
      route once. A DNS error leaves no resolved routes. */
  function FinalRoutes(config: Config, resolver: Dns.Resolver): (routes: seq<string>)
    ensures Dedupe.NoDuplicates(routes)
    ensures forall s :: s in routes <==>
              s in config.subnets || s in Dns.PerformDnsLookups(resolver, config.sites, config.enableIpv6).subnets
    ensures routes == Dedupe.Unique(Dns.PerformDnsLookups(resolver, config.sites, config.enableIpv6).subnets + config.subnets)
  {
    var lookups := Dns.PerformDnsLookupsFixed(resolver, config.sites, config.enableIpv6);
    Dns.PerformDnsLookupsFixedAgrees(resolver, config.sites, config.enableIpv6);
    Dedupe.Unique(lookups.subnets + config.subnets)
  }

  /** A DNS error does not stop the update: the list is the static subnets
      alone, deduplicated (and unchanged if they have no repeats). */
  lemma DnsErrorLeavesStaticRoutes(config: Config, resolver: Dns.Resolver)
    requires Dns.PerformDnsLookups(resolver, config.sites, config.enableIpv6).err.Some?
    ensures FinalRoutes(config, resolver) == Dedupe.Unique(config.subnets)
    ensures Dedupe.NoDuplicates(config.subnets) ==> FinalRoutes(config, resolver) == config.subnets
  {
    Dns.PerformDnsLookupsFixedAgrees(resolver, config.sites, config.enableIpv6);
    assert [] + config.subnets == config.subnets;
    if Dedupe.NoDuplicates(config.subnets) {
      Dedupe.UniqueOfDistinct(config.subnets);
    }
  }

  /** `runUpdates` of the worker. A DNS error is posted and the update goes
      on. Outside test mode the command runs (a failure exits with status 1
      before anything else happens); the route-update notice is posted in
      both modes; outside test mode the routes are then published, and a
      publish error is posted and exits with status 1. */
  function RunUpdates(testMode: bool, config: Config, event: Event, env: Env): (t: Trace)
    ensures testMode ==> !RunsCommand(t.effects) && !Publishes(t.effects) && t.ending == Finished
    ensures !testMode ==> (Publishes(t.effects) <==>
              env.commandSucceeds(Command.CommandLine(config.command, FinalRoutes(config, env.resolver))))
    ensures forall i :: 0 <= i < |t.effects| && t.effects[i].RoutesPublished? ==>
              && t.effects[i].routes == FinalRoutes(config, env.resolver)
              && exists j :: 0 <= j < i && t.effects[j] == CommandRun(Command.CommandLine(config.command, t.effects[i].routes))
    ensures (|t.effects| > 0 && t.effects[0].ErrorPosted?) <==>
              Dns.PerformDnsLookups(env.resolver, config.sites, config.enableIpv6).err.Some?
    ensures t.ending.Exited? ==> t.ending.code == 1 && !testMode
    ensures forall i :: 0 <= i < |t.effects| ==> !t.effects[i].MessageDeleted?
    ensures var routes := FinalRoutes(config, env.resolver);
            var command := Command.CommandLine(config.command, routes);
            && (t.ending.Exited? <==> !testMode && (!env.commandSucceeds(command) || env.publish(routes).Some?))
            && (!testMode ==> CommandRun(command) in t.effects)
            && (testMode || env.commandSucceeds(command) <==> RouteUpdatePosted(event.description, config.clientId) in t.effects)
            && (!testMode && !env.commandSucceeds(command) ==> t.effects[|t.effects| - 1] == CommandRun(command))
            && (!testMode && env.commandSucceeds(command) && env.publish(routes).Some? ==>
                  t.effects[|t.effects| - 1] == ErrorPosted(env.publish(routes).value))
  {
    var lookups := Dns.PerformDnsLookupsFixed(env.resolver, config.sites, config.enableIpv6);
    Dns.PerformDnsLookupsFixedAgrees(env.resolver, config.sites, config.enableIpv6);
    var routes := FinalRoutes(config, env.resolver);
    var command := Command.CommandLine(config.command, routes);
    UpdateTrace(testMode, lookups.err, command, env.commandSucceeds(command),
                RouteUpdatePosted(event.description, config.clientId), routes, env.publish(routes))
  }

  /** The effects of an update once its inputs are known: the DNS error, if
      any, is posted first; then, outside test mode, the command runs and a
      failure exits; the notice is posted; and, outside test mode, the routes
      are published, a publish error being posted before exiting. */
  function UpdateTrace(testMode: bool, dnsError: Option<string>, command: string, succeeds: bool,
                       notice: Effect, routes: seq<string>, publishError: Option<string>): (t: Trace)
    requires notice.RouteUpdatePosted?
    ensures testMode ==> !RunsCommand(t.effects) && !Publishes(t.effects) && t.ending == Finished
    ensures !testMode ==> (Publishes(t.effects) <==> succeeds)
    ensures forall i :: 0 <= i < |t.effects| && t.effects[i].RoutesPublished? ==>
              && t.effects[i].routes == routes
              && exists j :: 0 <= j < i && t.effects[j] == CommandRun(command)
    ensures (|t.effects| > 0 && t.effects[0].ErrorPosted?) <==> dnsError.Some?
    ensures t.ending.Exited? ==> t.ending.code == 1 && !testMode
    ensures forall i :: 0 <= i < |t.effects| ==> !t.effects[i].MessageDeleted?
    ensures t.ending.Exited? <==> !testMode && (!succeeds || publishError.Some?)
    ensures !testMode ==> CommandRun(command) in t.effects
    ensures testMode || succeeds <==> notice in t.effects
    ensures !testMode && !succeeds ==> t.effects[|t.effects| - 1] == CommandRun(command)
    ensures !testMode && succeeds && publishError.Some? ==>
              t.effects[|t.effects| - 1] == ErrorPosted(publishError.value)
  {
    var alert := if dnsError.Some? then [ErrorPosted(dnsError.value)] else [];
    if testMode then
      Trace(alert + [notice], Finished)
    else if !succeeds then
      Trace(alert + [CommandRun(command)], Exited(1))
    else
      var done := alert + [CommandRun(command), notice, RoutesPublished(routes)];
      assert done[|alert|] == CommandRun(command);
      assert done[|alert| + 2].RoutesPublished?;
      match publishError
      case None => Trace(done, Finished)
      case Some(e) =>
        assert (done + [ErrorPosted(e)])[|alert| + 2] == done[|alert| + 2];
        assert (done + [ErrorPosted(e)])[|alert|] == done[|alert|];
        Trace(done + [ErrorPosted(e)], Exited(1))
  }

  /** On a successful command outside test mode, the route-update notice is
      posted immediately after the command and immediately before the
      publish. */
  lemma NoticeBetweenCommandAndPublish(testMode: bool, config: Config, event: Event, env: Env)
    requires !testMode
    requires env.commandSucceeds(Command.CommandLine(config.command, FinalRoutes(config, env.resolver)))
    ensures var routes := FinalRoutes(config, env.resolver);
            exists j :: BlockAt(RunUpdates(testMode, config, event, env).effects, j,
                                [CommandRun(Command.CommandLine(config.command, routes)),
                                 RouteUpdatePosted(event.description, config.clientId),
                                 RoutesPublished(routes)])
  {
    var routes := FinalRoutes(config, env.resolver);
    var command := Command.CommandLine(config.command, routes);
    var lookups := Dns.PerformDnsLookupsFixed(env.resolver, config.sites, config.enableIpv6);
    var alert := if lookups.err.Some? then [ErrorPosted(lookups.err.value)] else [];
    var block := [CommandRun(command), RouteUpdatePosted(event.description, config.clientId), RoutesPublished(routes)];
    var failure := if env.publish(routes).Some? then [ErrorPosted(env.publish(routes).value)] else [];
    assert RunUpdates(testMode, config, event, env).effects == alert + block + failure;
    BlockAtAppend(alert, block, failure);
  }

  /** A queue message: its body and the receipt handle that deletes it. */
  datatype Message = Message(body: string, receipt: string)

  /** The outcome of one long poll of the queue. */
  datatype Poll = ReceiveFailed(reason: string) | Received(messages: seq<Message>)

  /** Everything one loop iteration meets: the poll, the event parser, the
      update's environment, and whether deleting a receipt succeeds. */
  datatype Round = Round(
    poll: Poll,
    parse: string -> Result<Event, string>,
    env: Env,
    deleteSucceeds: string -> bool)

  /** One iteration of the worker loop of `Run`. A failed poll exits; no
      message or an unparsable one ends the iteration with no effect (the
      message stays queued); otherwise wait, update, and, if the update did
      not exit, delete the message (a failed delete exits). */
  function Iteration(testMode: bool, config: Config, round: Round): (t: Trace)
    ensures round.poll.ReceiveFailed? ==> t == Trace([], Exited(1))
    ensures (round.poll.Received? && (|round.poll.messages| == 0 || round.parse(round.poll.messages[0].body).Failure?))
            ==> t == Trace([], Finished)
    ensures forall i :: 0 <= i < |t.effects| && t.effects[i].MessageDeleted? ==>
              && i == |t.effects| - 1
              && round.poll.Received? && |round.poll.messages| > 0
              && t.effects[i].receipt == round.poll.messages[0].receipt
              && round.parse(round.poll.messages[0].body).Success?
              && t.effects[..i] == [SettleWait(SettleSeconds)] +
                   RunUpdates(testMode, config, round.parse(round.poll.messages[0].body).value, round.env).effects
              && RunUpdates(testMode, config, round.parse(round.poll.messages[0].body).value, round.env).ending == Finished
    ensures round.poll.Received? && |round.poll.messages| > 0 && round.parse(round.poll.messages[0].body).Success? &&
            RunUpdates(testMode, config, round.parse(round.poll.messages[0].body).value, round.env).ending.Exited? ==>
              var update := RunUpdates(testMode, config, round.parse(round.poll.messages[0].body).value, round.env);
              t == Trace([SettleWait(SettleSeconds)] + update.effects, update.ending)
    ensures round.poll.Received? && |round.poll.messages| > 0 &&
            CompletesMessage(testMode, config, round, round.poll.messages[0].receipt) ==>
              t.ending == (if round.deleteSucceeds(round.poll.messages[0].receipt) then Finished else Exited(1))
  {
    match round.poll
    case ReceiveFailed(_) => Trace([], Exited(1))
    case Received(messages) =>
      if |messages| == 0 then Trace([], Finished)
      else
        var message := messages[0];
        match round.parse(message.body)
        case Failure(_) => Trace([], Finished)
        case Success(event) =>
          Settle(RunUpdates(testMode, config, event, round.env), message.receipt, round.deleteSucceeds(message.receipt))
  }

  /** The part of an iteration around a parsed message's update: the settle
      wait comes first; an update that exits ends the iteration there;
      otherwise the message is deleted last, and a failed delete exits. */
  function Settle(update: Trace, receipt: string, deleted: bool): (t: Trace)
    requires forall i :: 0 <= i < |update.effects| ==> !update.effects[i].MessageDeleted?
    ensures update.ending.Exited? ==> t == Trace([SettleWait(SettleSeconds)] + update.effects, update.ending)
    ensures update.ending == Finished ==> t.ending == (if deleted then Finished else Exited(1))
    ensures forall i :: 0 <= i < |t.effects| && t.effects[i].MessageDeleted? ==>
              && i == |t.effects| - 1
              && t.effects[i].receipt == receipt
              && update.ending == Finished
              && t.effects[..i] == [SettleWait(SettleSeconds)] + update.effects
  {
    var waited := [SettleWait(SettleSeconds)] + update.effects;
    if update.ending.Exited? then Trace(waited, update.ending)
    else
      var effects := waited + [MessageDeleted(receipt)];
      assert effects[..|waited|] == waited;
      Trace(effects, if deleted then Finished else Exited(1))
  }

  /** A parsed message whose update finishes is deleted, as the last effect
      of the iteration, after the settle wait and the whole update. */
  lemma CompletedUpdateDeletesMessage(testMode: bool, config: Config, round: Round)
    requires round.poll.Received? && |round.poll.messages| > 0
    requires round.parse(round.poll.messages[0].body).Success?
    requires RunUpdates(testMode, config, round.parse(round.poll.messages[0].body).value, round.env).ending == Finished
    ensures var t := Iteration(testMode, config, round);
            var update := RunUpdates(testMode, config, round.parse(round.poll.messages[0].body).value, round.env);
            t.effects == [SettleWait(SettleSeconds)] + update.effects + [MessageDeleted(round.poll.messages[0].receipt)]
  {
  }

  /** The receipt a round's iteration deletes, if its update completes. */
  predicate CompletesMessage(testMode: bool, config: Config, round: Round, receipt: string)
  {
    && round.poll.Received? && |round.poll.messages| > 0
    && round.poll.messages[0].receipt == receipt
    && round.parse(round.poll.messages[0].body).Success?
    && RunUpdates(testMode, config, round.parse(round.poll.messages[0].body).value, round.env).ending == Finished
  }

  /** The worker loop over a finite run of iterations: effects accumulate
      until an iteration exits the process, and nothing happens after that. */
  function Run(testMode: bool, config: Config, rounds: seq<Round>): (t: Trace)
    ensures t.ending.Exited? <==>
              exists i :: 0 <= i < |rounds| && Iteration(testMode, config, rounds[i]).ending.Exited?
    ensures forall k :: 0 <= k < |t.effects| && t.effects[k].MessageDeleted? ==>
              exists i :: 0 <= i < |rounds| && CompletesMessage(testMode, config, rounds[i], t.effects[k].receipt)
  {
    if |rounds| == 0 then Trace([], Finished)
    else
      var first := Iteration(testMode, config, rounds[0]);
      if first.ending.Exited? then first
      else
        var rest := Run(testMode, config, rounds[1..]);
        assert forall i :: 0 < i < |rounds| ==> rounds[i] == rounds[1..][i - 1];
        var t := Trace(first.effects + rest.effects, rest.ending);
        assert forall k :: |first.effects| <= k < |t.effects| ==> t.effects[k] == rest.effects[k - |first.effects|];
        t
  }

  /** Rounds after the first exiting iteration have no effect. */
  lemma {:induction false} RunStopsAtExit(testMode: bool, config: Config, rounds: seq<Round>, i: nat)
    requires i < |rounds|
    requires Iteration(testMode, config, rounds[i]).ending.Exited?
    ensures Run(testMode, config, rounds) == Run(testMode, config, rounds[..i + 1])
  {
    if i > 0 && Iteration(testMode, config, rounds[0]).ending == Finished {
      assert rounds[1..][i - 1] == rounds[i];
      RunStopsAtExit(testMode, config, rounds[1..], i - 1);
      assert rounds[..i + 1][1..] == rounds[1..][..i];
    }
  }
}

=== FILE: worker_loop.dfy ===
/** Laws of the worker loop: how runs of rounds compose. */
module WorkerLoop {
  import opened Effects
  import opened Worker

  /** A run of one round is that round's iteration. */
  lemma RunOfOne(testMode: bool, config: Config, round: Round)
    ensures Run(testMode, config, [round]) == Iteration(testMode, config, round)
  {
  }

  /** Concatenation of effect lists regroups freely. */
  lemma AppendAssociates(x: seq<Effect>, y: seq<Effect>, z: seq<Effect>)
    ensures x + (y + z) == (x + y) + z
  {
  }

  /** Runs compose: the rounds of a later run take effect, after all the
      effects of an earlier one, exactly when the earlier run did not exit.
      With `RunOfOne` this fixes every run as its iterations' effects in
      order, cut at the first exit. */
  lemma {:induction false} RunAppend(testMode: bool, config: Config, a: seq<Round>, b: seq<Round>)
    ensures Run(testMode, config, a + b) ==
              if Run(testMode, config, a).ending.Exited? then Run(testMode, config, a)
              else Trace(Run(testMode, config, a).effects + Run(testMode, config, b).effects, Run(testMode, config, b).ending)
  {
    if |a| == 0 {
      assert a + b == b;
    } else {
      assert (a + b)[0] == a[0];
      assert (a + b)[1..] == a[1..] + b;
      if Iteration(testMode, config, a[0]).ending == Finished {
        RunAppend(testMode, config, a[1..], b);
        AppendAssociates(Iteration(testMode, config, a[0]).effects, Run(testMode, config, a[1..]).effects,
                         Run(testMode, config, b).effects);
      }
    }
  }
}

=== FILE: wrappers.dfy ===
/** Failure-carrying values used throughout the model: an optional value and
    a value-or-error result, the Dafny reading of Go's `(T, error)` pairs. */
module Wrappers {

  datatype Option<+T> = None | Some(value: T)

  datatype Result<+T, +E> = Success(value: T) | Failure(error: E)
}
